=== FILE: README.md ===
# Magnets puzzle model: cells, lines, board initialisation, error log

This project models, in Dafny, an early snapshot of a model of the Magnets logic
puzzle. In the puzzle, a grid is tiled with dominoes ("magnets"). Each half of a
magnet is plus or minus, or the whole magnet is left out ('.'). Rows and columns
carry counts of how many '+' and '-' cells they must hold. The snapshot has no
solver. What it does have is:

- **Cells** (`Cells`, app/cell.js): construction with a pole position, the
  opposite pole's coordinates, the `reverse` polarity swap, and the one-hop
  `set` and `forbid` writes. A cell refers to other cells (its opposite, its
  neighbours). So the cells live in an arena: a `seq<Cell>` in which a
  reference is an index. `set`, `forbid`, `setOpposite` and `setNeighbors` are
  pure transitions on the arena. A call on a cell whose opposite was never
  registered is modelled as the source behaves: this cell's polarity has
  already been written when the call on the missing opposite throws a
  `TypeError`.
- **Lines** (`Lines`, app/line.js): a row or column with a constraint record,
  a list of cell references, and the count validator `check(strict)`. The
  line's `label` property is called `name` here, because `label` is a Dafny
  keyword.
- **Board initialisation** (`Board`, app/board.js): the dimension range check
  and the state reset. The module-level `dimension` and `board` variables
  become an explicit `BoardState` value.
- **Error log** (`Errors`, app/errors.js): an append-only message list and its
  length.

`Js` holds the JavaScript values the code handles, with truthiness,
`===` against a number and `<`/`>` against a number (where `undefined` becomes
NaN and compares false).

Two quirks of the code are modelled as written and stated as lemmas, not
repaired:

- `set` and `forbid` write the `polarity` property. `getValue` reads the
  `value` property, which no code assigns. `check` counts `getValue` results.
  So no `set` or `forbid` ever changes what `check` returns
  (`Lines.SetDoesNotAffectCheck`). On cells built by this code, the exact check
  passes only when neither polarity is constrained
  (`Lines.UnwrittenValuesCountNothing`).
- `reverse` knows only `'plus'` and `'minus'`. But the polarity comment and
  `check` use `'+'` and `'-'`. Setting a cell to `'+'` therefore gives its
  opposite the polarity `null` (`Cells.SetWithSymbolClearsOpposite`).

The code's own comments and callers disagree with it in two places, and this
model follows the code each time. The comment on the `polarity` property
(app/cell.js:22-27) lists '+', '-' and '.'. The documentation of `set`
(app/cell.js:47) asks for 'plus' or 'minus', and only those two are reversed.
app/main.js:25 calls `init` with five arguments, but `init` (app/board.js:15)
reads only the first one, the dimension.

## Model

| member | source | states |
|---|---|---|
| Cells.NewCell | app/cell.js:11-39 | Construction succeeds exactly for the eleven substrings of "ltrb", including "" and "lt". For a one-character pole it succeeds exactly for l, t, r, b. Otherwise it fails with an unknown-pole-position error. A new cell has polarity null, no neighbours, no opposite and an unwritten value. |
| Cells.IncludesIffOccurs | app/cell.js:13 | The scan used for `includes` answers true exactly when the needle occurs at some offset of the string. |
| Cells.AcceptedPolesAreSubstrings | app/cell.js:13-15 | The pole strings `'ltrb'.includes` accepts are exactly the listed set of substrings. |
| Cells.OppositePoleCoordinates | app/cell.js:90-115 | Coordinates are returned exactly for l, r, t, b and are undefined otherwise. The point is one grid step away: horizontal for l/r, vertical for t/b. It lies in the increasing direction for l and t and the decreasing direction for r and b. |
| Cells.OppositeRoundTrip | app/cell.js:91-114 | For a pole and a partner cell (l with r, t with b) standing at the pole's opposite point, the partner's opposite point is the original cell. |
| Cells.Reverse | app/cell.js:134-142 | Only plus and minus map to a polarity. Each maps to the other one, not to itself. Everything else maps to null. |
| Cells.ReverseIsInvolution | app/cell.js:134-142 | Reversing plus or minus twice gives the original polarity back. |
| Cells.GetValue | app/cell.js:170-172 | `getValue` reads the `value` property, which no code of the cell assigns: on cells whose values were never written it returns undefined. This holds from construction on (`Cells.NewCell` gives `value` undefined), is kept by `Cells.SetOpposite` and `Cells.SetNeighbors`, and `Cells.Set` and `Cells.Forbid` leave `GetValue` unchanged on every cell. `Lines.UnwrittenValuesCountNothing` gives its consequence for `check`. |
| Cells.SetOpposite | app/cell.js:80-82 | Only the cell's opposite reference changes. The arena stays well formed and keeps every value unwritten. |
| Cells.SetNeighbors | app/cell.js:150-152 | Only the cell's neighbour list changes. The arena stays well formed and keeps every value unwritten. |
| Cells.Set | app/cell.js:51-57 | This cell takes the polarity. Unless the opposite is ignored, the opposite takes its reverse, and no other cell changes. With the opposite ignored, only this cell changes. The call throws exactly when the opposite is needed but missing. Only polarities change, so `getValue` is the same on every cell afterwards. |
| Cells.Forbid | app/cell.js:66-72 | This cell becomes '.'. Unless the opposite is ignored, so does the opposite, and no other cell changes. With the opposite ignored, only this cell changes. It throws exactly when the opposite is needed but missing. `getValue` is unchanged everywhere. |
| Cells.SetKeepsMagnetsAgreeing | app/cell.js:51-57 | On symmetrically linked cells, setting a cell to plus or minus keeps every magnet unset, plus/minus, or '.'/'.'. |
| Cells.ForbidKeepsMagnetsAgreeing | app/cell.js:66-72 | On symmetrically linked cells, forbidding a cell keeps every magnet unset, plus/minus, or '.'/'.'. |
| Cells.SetWithSymbolClearsOpposite | app/cell.js:51-57 | Setting a cell to '+' gives its opposite the polarity null, because `reverse` does not know '+'. |
| Lines.CountOf | app/line.js:80 | The filtered count of values equal to a polarity is that polarity's multiplicity in the values, so it is never more than their number. |
| Lines.CheckValues | app/line.js:76-99 | Exact mode holds iff every truthily constrained polarity's count equals its constraint. Bound mode holds iff no such count exceeds its constraint. |
| Lines.Check | app/line.js:74-100 | The same two iff statements, applied to the values of the line's cells as `getValue` returns them. |
| Lines.NewLine | app/line.js:11-20 | A new line has no cells, both constraints null (so nothing is demanded), and the given length and name. |
| Lines.SetConstraints | app/line.js:31-38 | The stored keys are exactly the '+' and '-' keys the record has, with their values. Every other key is dropped, and the cells are untouched. |
| Lines.AddCells | app/line.js:57-58 | The old cells stay in place as a prefix, followed by the given cells in order. The constraints are unchanged. |
| Lines.FalsyConstraintImposesNothing | app/line.js:78 | A polarity whose constraint is null, undefined or 0 passes in either mode, whatever the values. |
| Lines.FalsyConstraintLeavesTheOther | app/line.js:76-99 | When a line's '+' constraint is null, undefined or 0, `check` in either mode returns exactly the verdict for '-', and the other way round. |
| Lines.StrictImpliesLax | app/line.js:84-93 | A line that passes the exact check also passes the bound check. |
| Lines.WordKeysImposeNothing | app/line.js:31-35 | A record without '+' and '-' keys (such as one with `plus`/`minus`) leaves a line that passes both checks on any cells. |
| Lines.NewLinePasses | app/line.js:14-17 | A new line passes both checks on any cells. |
| Lines.AddCellsKeepsLaxFailure | app/line.js:58 | Appending cells never turns a failed bound check into a passing one. |
| Lines.SetDoesNotAffectCheck | app/cell.js:51-57 | No `set` call changes the result of either check on any line. |
| Lines.ForbidDoesNotAffectCheck | app/cell.js:66-72 | No `forbid` call changes the result of either check on any line. |
| Lines.UnwrittenValuesCountNothing | app/line.js:76-93 | On cells whose value was never written, the exact check passes iff neither constraint is truthy. The bound check fails iff a constraint is negative. |
| Board.Init | app/board.js:15-27 | `init` succeeds iff the dimension is a number in 2..20. Falsy values, numbers below 2 and numbers above 20 are rejected with an illegal-dimension error. On failure the state is unchanged. On success the dimension is stored and the board is empty. |
| Board.InitFromStart | app/board.js:3-27 | From the state before any `init` (both variables undefined), a dimension in 2..20 gives exactly that dimension and an empty board. Any other dimension throws the illegal-dimension error for that value and leaves both variables undefined. |
| Board.ReinitResets | app/board.js:23-25 | A successful `init` after another one gives the same state as if it had been the only one. |
| Errors.LogError | app/errors.js:11-13 | The log grows by exactly one entry, the message at the end, and earlier entries are unchanged. |
| Errors.Count | app/errors.js:19-21 | `count()` reads the log without changing it. It is 0 for exactly the empty log. Its behaviour under logging is stated by `Errors.LogErrorCountsOne`, `Errors.EmptyCountsNothing` and `Errors.LogAllAppends`. |
| Errors.LogErrorCountsOne | app/errors.js:11-21 | `count()` after `logError` is one more than before. |
| Errors.EmptyCountsNothing | app/errors.js:3-21 | `count()` is 0 before anything is logged. |
| Errors.LogAllAppends | app/errors.js:11-13 | Logging a list of messages one by one keeps the old entries and appends exactly the new ones in order. The count grows by their number. |
| Errors.FreshLogHoldsWhatWasLogged | app/errors.js:3-21 | Starting from the empty log, the log holds exactly the logged messages in order, and `count()` is their number. |

## Left out

- Cells.NewCell: the pole argument is a string. `includes` converts any other argument to text first. For null, undefined, numbers and booleans that text (`"null"`, `"undefined"`, digits, `"true"`) is never a substring of "ltrb", so they throw as well. Arrays and objects are not modelled: their text can be accepted (`[]` becomes `""`, `['l']` becomes `"l"`), and a RegExp makes `includes` throw a TypeError instead. Coordinates are integers. Non-numbers are not modelled: a string concatenates under `+` and is converted under `-`, `undefined` gives NaN, and `null` and booleans are converted to numbers.
- Cells.Set, Cells.Forbid: `ignoreOtherPole` is a boolean. Other values, and an omitted argument, are read by their truthiness in the source.
- `getOpposite` and `getPosition` (app/cell.js:123-125, 160-162) and `getConstraints` (app/line.js:46-48) only return a field. The model reads the field directly.
- Lines.AddCells: only the append is modelled. The source then calls `registerLine` on every added cell, and app/cell.js does not define it, so that call would throw for a non-empty list.
- Lines.SetConstraints: the record is a map from property names to a number, null or undefined. Inherited properties and a null or undefined record (which lodash's `pick` maps to `{}`) are not modelled.
- Lines.Check: constraint values are integers, null or undefined. Strings, booleans, fractions and NaN, whose comparison involves coercion, are not modelled. Cell values are primitive values compared by `===`, and objects are not modelled. `strict` is a boolean. The source reads it by truthiness, so `check()` with no argument is the bound check.
- The `console.log` calls in app/line.js:37, app/line.js:96 and app/board.js:16 are output only.
- Board.Init: the dimension is an integer, null or undefined. Non-integer numbers are not modelled; the source accepts and stores one such as 2.5. NaN (rejected by the falsy test) and ±Infinity are not modelled either. A string dimension would be compared after coercion, and that is not modelled.
- `print`, `clear` and `getValue` of app/board.js are not modelled. `print` returns without doing anything before any `init`, because `dimension` is still undefined and neither loop runs. It fails after any successful `init`, when `getValue` reads the unbound `y` (app/board.js:74); behind that it would call the nonexistent `console.out`. `clear` uses an unbound `_` and an undefined `setValue`, and `getValue` reads unbound `x` and `y`, so both always fail.
- Errors.LogError: messages are strings, as documented. The source accepts any value.
- app/magnet.js is not part of this model. It uses an unbound `_` and exports undefined names, so it fails when loaded. app/main.js (the entry point and example puzzle) is not part of it either.
- Solving, candidate domains and their propagation, neighbour derivation, and row, column and magnet construction do not exist in this snapshot of the code.

=== FILE: board.dfy ===
/**
 Initialisation of the game board (app/board.js): the side length is checked
 against the range 2..20 and the board is reset to an empty list.

 The module-level `board` and `dimension` variables become an explicit state
 value that `Init` takes and returns.
 */
module Board {
  import opened Js
  import opened Cells

  const MinDimension: int := 2
  const MaxDimension: int := 20

  /** `dimension` and `board`; both undefined (`Undefined`, `None`) before the first `init`. */
  datatype BoardState = BoardState(dimension: NumberOrNothing, board: Option<seq<seq<Cell>>>)

  const Uninitialised: BoardState := BoardState(Undefined, None)

  /** The state after an `init` call, and how the call completed. */
  datatype InitStep = InitStep(state: BoardState, outcome: Outcome)

  /**
   `init(dimension)`: throws unless the dimension is a truthy number in
   2..20; the throw comes before any assignment, so a failed call leaves
   the state as it was. On success the dimension is stored and the board
   is empty.
   */
  function Init(s: BoardState, dimension: NumberOrNothing): (r: InitStep)
    ensures r.outcome.Pass? <==> dimension.Number? && MinDimension <= dimension.n <= MaxDimension
    ensures r.outcome.Fail? ==> r.state == s && r.outcome.error == IllegalDimension(dimension)
    ensures r.outcome.Pass? ==> r.state.dimension == dimension && r.state.board == Some([])
  {
    if !Truthy(dimension) || LessThan(dimension, MinDimension) || GreaterThan(dimension, MaxDimension) then
      InitStep(s, Fail(IllegalDimension(dimension)))
    else
      InitStep(BoardState(dimension, Some([])), Pass)
  }

  /**
   The first `init` of a program run: a dimension in 2..20 is stored with an
   empty board; anything else throws and both variables stay undefined.
   */
  lemma InitFromStart(dimension: NumberOrNothing)
    ensures dimension.Number? && MinDimension <= dimension.n <= MaxDimension ==>
      Init(Uninitialised, dimension) == InitStep(BoardState(dimension, Some([])), Pass)
    ensures !(dimension.Number? && MinDimension <= dimension.n <= MaxDimension) ==>
      Init(Uninitialised, dimension) == InitStep(Uninitialised, Fail(IllegalDimension(dimension)))
  {
  }

  /** A second successful `init` forgets everything the first one set up. */
  lemma ReinitResets(s: BoardState, first: NumberOrNothing, second: NumberOrNothing)
    requires Init(s, first).outcome.Pass? && Init(s, second).outcome.Pass?
    ensures Init(Init(s, first).state, second).state == Init(s, second).state
  {
  }
}

=== FILE: cell.dfy ===
/**
 One half of a magnet on the puzzle grid (app/cell.js).

 Cells refer to each other (the opposite pole, the neighbours), so they live in
 an arena: a sequence of cells in which a reference is an index. `set` and
 `forbid` are transitions on the whole arena, which makes "which cells change"
 something a contract can state.
 */
module Cells {
  import opened Js

  /** The pole positions the constructor accepts a substring of. */
  const PolePositions: string := "ltrb"

  const Plus: Value := Str("plus")
  const Minus: Value := Str("minus")
  const Forbidden: Value := Str(".")

  datatype Coord = Coord(x: int, y: int)

  /**
   A cell record. `opposite` is `None` until `setOpposite` has been called (the
   property is then absent). `value` is the property `getValue` reads; no code of
   the cell ever assigns it, so every cell built by `NewCell` carries `Undefined`.
   */
  datatype Cell = Cell(
    x: int,
    y: int,
    polePosition: string,
    polarity: Value,
    neighbors: seq<nat>,
    opposite: Option<nat>,
    value: Value)

  type Arena = seq<Cell>

  /** The arena after one call, and how the call completed. */
  datatype Transition = Transition(cells: Arena, outcome: Outcome)

  // ---------------------------------------------------------------------------
  // Construction

  /** `needle` occurs in `hay` starting at index `i`. */
  ghost predicate OccursAt(needle: string, hay: string, i: int)
  {
    0 <= i && i + |needle| <= |hay| && hay[i..i + |needle|] == needle
  }

  /** String.prototype.includes: a left-to-right scan for `needle`. */
  function Includes(hay: string, needle: string): bool
    decreases |hay|
  {
    if |needle| <= |hay| && hay[..|needle|] == needle then true
    else if hay == [] then false
    else Includes(hay[1..], needle)
  }

  lemma {:induction false} IncludesIffOccurs(hay: string, needle: string)
    ensures Includes(hay, needle) <==> exists i :: OccursAt(needle, hay, i)
    decreases |hay|
  {
    if |needle| <= |hay| && hay[..|needle|] == needle {
      assert OccursAt(needle, hay, 0);
    } else if hay == [] {
    } else {
      IncludesIffOccurs(hay[1..], needle);
      if exists i :: OccursAt(needle, hay[1..], i) {
        var i :| OccursAt(needle, hay[1..], i);
        assert hay[1..][i..i + |needle|] == hay[i + 1..i + 1 + |needle|];
        assert OccursAt(needle, hay, i + 1);
      }
      if exists i :: OccursAt(needle, hay, i) {
        var i :| OccursAt(needle, hay, i);
        assert i != 0;
        assert hay[1..][i - 1..i - 1 + |needle|] == hay[i..i + |needle|];
        assert OccursAt(needle, hay[1..], i - 1);
      }
    }
  }

  /** Every pole string the constructor lets through: the substrings of "ltrb". */
  const AcceptedPoles: set<string> :=
    {"", "l", "t", "r", "b", "lt", "tr", "rb", "ltr", "trb", "ltrb"}

  lemma AcceptedPolesAreSubstrings(pole: string)
    ensures Includes(PolePositions, pole) <==> pole in AcceptedPoles
  {
    IncludesIffOccurs(PolePositions, pole);
    if pole in AcceptedPoles {
      var i := AcceptedPoleOffset(pole);
      assert OccursAt(pole, PolePositions, i);
    } else if exists i :: OccursAt(pole, PolePositions, i) {
      var i :| OccursAt(pole, PolePositions, i);
      SubstringsAccepted(i, i + |pole|);
    }
  }

  /** Where an accepted pole string sits inside "ltrb". */
  function AcceptedPoleOffset(pole: string): (i: nat)
    requires pole in AcceptedPoles
    ensures i + |pole| <= |PolePositions| && PolePositions[i..i + |pole|] == pole
  {
    var i := if pole == "" then 0
      else if pole[0] == 'l' then 0
      else if pole[0] == 't' then 1
      else if pole[0] == 'r' then 2
      else 3;
    assert forall k :: 0 <= k < |pole| ==> PolePositions[i + k] == pole[k];
    SliceFromElements(PolePositions, pole, i);
    i
  }

  lemma SliceFromElements(hay: string, needle: string, i: nat)
    requires i + |needle| <= |hay|
    requires forall k :: 0 <= k < |needle| ==> hay[i + k] == needle[k]
    ensures hay[i..i + |needle|] == needle
  {
  }

  lemma SubstringsAccepted(i: int, j: int)
    requires 0 <= i <= j <= |PolePositions|
    ensures PolePositions[i..j] in AcceptedPoles
  {
    var s := PolePositions[i..j];
    if i == j {
      assert s == "";
    } else if i == 0 {
      if j == 1 { assert s == "l"; }
      else if j == 2 { assert s == "lt"; }
      else if j == 3 { assert s[0] == 'l' && s[1] == 't' && s[2] == 'r'; assert s == "ltr"; }
      else { assert s == "ltrb"; }
    } else if i == 1 {
      if j == 2 { assert s == "t"; }
      else if j == 3 { assert s[0] == 't' && s[1] == 'r'; assert s == "tr"; }
      else { assert s == "trb"; }
    } else if i == 2 {
      if j == 3 { assert s[0] == 'r'; assert s == "r"; }
      else { assert s == "rb"; }
    } else {
      assert s == "b";
    }
  }

  /**
   The constructor: fails unless the pole string is a substring of "ltrb";
   otherwise a cell with no polarity, no neighbours and no opposite yet.
   */
  function NewCell(x: int, y: int, polePosition: string): (r: Result<Cell>)
    ensures r.Success? <==> polePosition in AcceptedPoles
    ensures |polePosition| == 1 ==> (r.Success? <==> polePosition[0] in PolePositions)
    ensures r.Failure? ==> r.error == UnknownPolePosition(polePosition)
    ensures r.Success? ==>
      && r.value.x == x && r.value.y == y && r.value.polePosition == polePosition
      && r.value.polarity == Null && r.value.neighbors == []
      && r.value.opposite.None? && r.value.value == Undefined
  {
    AcceptedPolesAreSubstrings(polePosition);
    if !Includes(PolePositions, polePosition) then
      Failure(UnknownPolePosition(polePosition))
    else
      Success(Cell(x, y, polePosition, Null, [], None, Undefined))
  }

  // ---------------------------------------------------------------------------
  // Pure helpers

  /** The polarity of the other half: plus and minus swap, anything else has none. */
  function Reverse(polarity: Value): (r: Value)
    ensures IsMagnetic(r) <==> IsMagnetic(polarity)
    ensures IsMagnetic(polarity) ==> r != polarity
    ensures !IsMagnetic(polarity) ==> r == Null
  {
    if polarity == Plus then Minus
    else if polarity == Minus then Plus
    else Null
  }

  /** The two polarities `set` expects. */
  predicate IsMagnetic(v: Value)
  {
    v == Plus || v == Minus
  }

  lemma ReverseIsInvolution(v: Value)
    requires IsMagnetic(v)
    ensures Reverse(Reverse(v)) == v
  {
  }

  /** The four single-letter pole positions. */
  predicate IsPole(p: string)
  {
    p == "l" || p == "r" || p == "t" || p == "b"
  }

  /** The position of the other half of a magnet: left pairs with right, top with bottom. */
  function Partner(p: string): (q: string)
    requires IsPole(p)
    ensures IsPole(q) && q != p
  {
    if p == "l" then "r" else if p == "r" then "l" else if p == "t" then "b" else "t"
  }

  /**
   Coordinates of the opposite pole; `None` (the function falls off its end and
   returns undefined) for a pole string other than the four letters.
   */
  function OppositePoleCoordinates(c: Cell): (r: Option<Coord>)
    ensures r.Some? <==> IsPole(c.polePosition)
    ensures r.Some? ==> (r.value.y == c.y <==> c.polePosition in {"l", "r"})
    ensures r.Some? ==> (r.value.x == c.x <==> c.polePosition in {"t", "b"})
    ensures r.Some? ==> (r.value.x - c.x) * (r.value.x - c.x) + (r.value.y - c.y) * (r.value.y - c.y) == 1
    ensures r.Some? ==> (r.value.x + r.value.y > c.x + c.y <==> c.polePosition in {"l", "t"})
  {
    if c.polePosition == "l" then Some(Coord(c.x + 1, c.y))
    else if c.polePosition == "r" then Some(Coord(c.x - 1, c.y))
    else if c.polePosition == "t" then Some(Coord(c.x, c.y + 1))
    else if c.polePosition == "b" then Some(Coord(c.x, c.y - 1))
    else None
  }

  /** Where a pole points, and where its partner at that point points back. */
  lemma OppositeRoundTrip(c: Cell, d: Cell)
    requires IsPole(c.polePosition)
    requires OppositePoleCoordinates(c) == Some(Coord(d.x, d.y))
    requires d.polePosition == Partner(c.polePosition)
    ensures OppositePoleCoordinates(d) == Some(Coord(c.x, c.y))
  {
  }

  // ---------------------------------------------------------------------------
  // Arena

  /** Every reference a cell holds points into the arena. */
  predicate RefsIn(c: Cell, size: nat)
  {
    && (c.opposite.Some? ==> c.opposite.value < size)
    && (forall k :: 0 <= k < |c.neighbors| ==> c.neighbors[k] < size)
  }

  predicate WellFormed(cells: Arena)
  {
    forall k :: 0 <= k < |cells| ==> RefsIn(cells[k], |cells|)
  }

  /** The cell at `i` exists and so does its opposite, if it has one. */
  predicate OppositeInRange(cells: Arena, i: nat)
  {
    i < |cells| && (cells[i].opposite.Some? ==> cells[i].opposite.value < |cells|)
  }

  /** The indices at which two arenas of one size differ. */
  function Changed(a: Arena, b: Arena): set<nat>
    requires |a| == |b|
  {
    set k: nat | k < |a| && a[k] != b[k]
  }

  /** Two records that agree on everything except the polarity. */
  predicate SameButPolarity(c: Cell, d: Cell)
  {
    c.(polarity := d.polarity) == d
  }

  /** `getValue`: the `value` property of the cell. */
  function GetValue(cells: Arena, i: nat): (v: Value)
    requires i < |cells|
    ensures ValuesUnwritten(cells) ==> v == Undefined
  {
    cells[i].value
  }

  /** All cells still carry the `value` no code assigns. */
  predicate ValuesUnwritten(cells: Arena)
  {
    forall k :: 0 <= k < |cells| ==> cells[k].value == Undefined
  }

  /** `setOpposite`: registers `j` as the opposite pole of `i`. */
  function SetOpposite(cells: Arena, i: nat, j: nat): (r: Arena)
    requires i < |cells| && j < |cells|
    ensures |r| == |cells| && Changed(cells, r) <= {i}
    ensures r[i].opposite == Some(j)
    ensures r[i] == cells[i].(opposite := Some(j))
    ensures WellFormed(cells) ==> WellFormed(r)
    ensures ValuesUnwritten(cells) ==> ValuesUnwritten(r)
  {
    cells[i := cells[i].(opposite := Some(j))]
  }

  /** `setNeighbors`: replaces the neighbour list of `i`. */
  function SetNeighbors(cells: Arena, i: nat, neighbors: seq<nat>): (r: Arena)
    requires i < |cells|
    requires forall k :: 0 <= k < |neighbors| ==> neighbors[k] < |cells|
    ensures |r| == |cells| && Changed(cells, r) <= {i}
    ensures r[i] == cells[i].(neighbors := neighbors)
    ensures WellFormed(cells) ==> WellFormed(r)
    ensures ValuesUnwritten(cells) ==> ValuesUnwritten(r)
  {
    cells[i := cells[i].(neighbors := neighbors)]
  }

  /** Writes the polarity of one cell and nothing else. */
  function WritePolarity(cells: Arena, i: nat, polarity: Value): (r: Arena)
    requires i < |cells|
    ensures |r| == |cells| && Changed(cells, r) <= {i}
    ensures r[i].polarity == polarity
    ensures forall k :: 0 <= k < |r| ==> SameButPolarity(cells[k], r[k])
  {
    cells[i := cells[i].(polarity := polarity)]
  }

  /**
   `set(polarity, ignoreOtherPole)`: this cell takes `polarity`; unless told to
   ignore it, the opposite pole takes the reverse, through a call that itself
   ignores its own opposite, so the change is one hop. Without an opposite
   the write to this cell has already happened when the call on the missing
   opposite throws.
   */
  function Set(cells: Arena, i: nat, polarity: Value, ignoreOtherPole: bool): (r: Transition)
    requires OppositeInRange(cells, i)
    ensures |r.cells| == |cells|
    ensures r.outcome.Fail? <==> !ignoreOtherPole && cells[i].opposite.None?
    ensures r.outcome.Fail? ==> r.outcome.error.TypeError?
    ensures ignoreOtherPole || cells[i].opposite.None? ==>
      Changed(cells, r.cells) <= {i} && r.cells[i].polarity == polarity
    ensures !ignoreOtherPole && cells[i].opposite.Some? ==>
      var j := cells[i].opposite.value;
      && Changed(cells, r.cells) <= {i, j}
      && r.cells[j].polarity == Reverse(polarity)
      && (j != i ==> r.cells[i].polarity == polarity)
    ensures forall k :: 0 <= k < |cells| ==> SameButPolarity(cells[k], r.cells[k])
    ensures forall k :: 0 <= k < |cells| ==> GetValue(r.cells, k) == GetValue(cells, k)
    ensures WellFormed(cells) ==> WellFormed(r.cells)
  {
    var written := WritePolarity(cells, i, polarity);
    if ignoreOtherPole then Transition(written, Pass)
    else match cells[i].opposite
      case None => Transition(written, Fail(TypeError("cannot read property 'set' of undefined")))
      case Some(j) => Transition(WritePolarity(written, j, Reverse(polarity)), Pass)
  }

  /**
   `forbid(ignoreOtherPole)`: marks the cell as not part of a magnet (`'.'`),
   and its opposite too unless told to ignore it, again one hop only.
   */
  function Forbid(cells: Arena, i: nat, ignoreOtherPole: bool): (r: Transition)
    requires OppositeInRange(cells, i)
    ensures |r.cells| == |cells|
    ensures r.outcome.Fail? <==> !ignoreOtherPole && cells[i].opposite.None?
    ensures r.outcome.Fail? ==> r.outcome.error.TypeError?
    ensures r.cells[i].polarity == Forbidden
    ensures ignoreOtherPole || cells[i].opposite.None? ==> Changed(cells, r.cells) <= {i}
    ensures !ignoreOtherPole && cells[i].opposite.Some? ==>
      var j := cells[i].opposite.value;
      Changed(cells, r.cells) <= {i, j} && r.cells[j].polarity == Forbidden
    ensures forall k :: 0 <= k < |cells| ==> SameButPolarity(cells[k], r.cells[k])
    ensures forall k :: 0 <= k < |cells| ==> GetValue(r.cells, k) == GetValue(cells, k)
    ensures WellFormed(cells) ==> WellFormed(r.cells)
  {
    var written := WritePolarity(cells, i, Forbidden);
    if ignoreOtherPole then Transition(written, Pass)
    else match cells[i].opposite
      case None => Transition(written, Fail(TypeError("cannot read property 'forbid' of undefined")))
      case Some(j) => Transition(WritePolarity(written, j, Forbidden), Pass)
  }

  // ---------------------------------------------------------------------------
  // The magnet invariant

  /** Opposite links are symmetric and never point a cell at itself. */
  predicate Linked(cells: Arena)
  {
    forall k :: 0 <= k < |cells| && cells[k].opposite.Some? ==>
      var j := cells[k].opposite.value;
      j < |cells| && j != k && cells[j].opposite == Some(k)
  }

  /** The polarities two halves of one magnet may hold together. */
  predicate PairAgrees(p: Value, q: Value)
  {
    || (p == Null && q == Null)
    || (p == Plus && q == Minus)
    || (p == Minus && q == Plus)
    || (p == Forbidden && q == Forbidden)
  }

  /** Every magnet is unset, a plus/minus pair, or forbidden on both halves. */
  predicate MagnetsAgree(cells: Arena)
    requires Linked(cells)
  {
    forall k :: 0 <= k < |cells| && cells[k].opposite.Some? ==>
      PairAgrees(cells[k].polarity, cells[cells[k].opposite.value].polarity)
  }

  /** Setting a linked cell to plus or minus keeps every magnet consistent. */
  lemma SetKeepsMagnetsAgreeing(cells: Arena, i: nat, polarity: Value)
    requires Linked(cells) && MagnetsAgree(cells)
    requires i < |cells| && cells[i].opposite.Some?
    requires IsMagnetic(polarity)
    ensures Set(cells, i, polarity, false).outcome == Pass
    ensures Linked(Set(cells, i, polarity, false).cells)
    ensures MagnetsAgree(Set(cells, i, polarity, false).cells)
  {
  }

  /** Forbidding a linked cell keeps every magnet consistent. */
  lemma ForbidKeepsMagnetsAgreeing(cells: Arena, i: nat)
    requires Linked(cells) && MagnetsAgree(cells)
    requires i < |cells| && cells[i].opposite.Some?
    ensures Forbid(cells, i, false).outcome == Pass
    ensures Linked(Forbid(cells, i, false).cells)
    ensures MagnetsAgree(Forbid(cells, i, false).cells)
  {
  }

  /**
   The `polarity` property is documented with '+'/'-' and `check` counts
   '+'/'-', but `set` and `reverse` work with 'plus'/'minus': setting a cell
   to '+' leaves its opposite with polarity null.
   */
  lemma SetWithSymbolClearsOpposite(cells: Arena, i: nat)
    requires OppositeInRange(cells, i) && cells[i].opposite.Some?
    ensures Set(cells, i, Str("+"), false).cells[cells[i].opposite.value].polarity == Null
  {
  }
}

=== FILE: errors.dfy ===
/**
 The error log (app/errors.js): an append-only list of messages and a query
 for its length. The module-level list becomes an explicit `Log` value.
 */
module Errors {

  datatype Log = Log(errors: seq<string>)

  /** The list before anything has been logged. */
  const Empty: Log := Log([])

  /** `logError(error)`: the message goes at the end; earlier entries stay as they were. */
  function LogError(log: Log, error: string): (r: Log)
    ensures |r.errors| == |log.errors| + 1
    ensures r.errors[..|log.errors|] == log.errors
    ensures r.errors[|log.errors|] == error
  {
    Log(log.errors + [error])
  }

  /** `count()`: the number of messages logged. */
  function Count(log: Log): (n: nat)
    ensures n == 0 <==> log == Empty
  {
    |log.errors|
  }

  /** Logging `errors` one after the other, in order, as a caller does. */
  function LogAll(log: Log, errors: seq<string>): Log
    decreases |errors|
  {
    if errors == [] then log else LogAll(LogError(log, errors[0]), errors[1..])
  }

  /** Each `logError` adds exactly one to `count()`. */
  lemma LogErrorCountsOne(log: Log, error: string)
    ensures Count(LogError(log, error)) == Count(log) + 1
  {
  }

  /** Nothing is counted before the first `logError`. */
  lemma EmptyCountsNothing()
    ensures Count(Empty) == 0
  {
  }

  /**
   Starting from any log, logging a list of messages keeps the old entries and
   appends exactly the new ones, in order; `count()` grows by their number.
   */
  lemma {:induction false} LogAllAppends(log: Log, errors: seq<string>)
    ensures LogAll(log, errors).errors == log.errors + errors
    ensures Count(LogAll(log, errors)) == Count(log) + |errors|
    decreases |errors|
  {
    if errors != [] {
      var next := LogError(log, errors[0]);
      LogAllAppends(next, errors[1..]);
      assert next.errors == log.errors + [errors[0]];
      assert [errors[0]] + errors[1..] == errors;
      assert log.errors + [errors[0]] + errors[1..] == log.errors + errors;
    }
  }

  /** From the start, the log holds exactly what was logged, in order. */
  lemma FreshLogHoldsWhatWasLogged(errors: seq<string>)
    ensures LogAll(Empty, errors).errors == errors
    ensures Count(LogAll(Empty, errors)) == |errors|
  {
    LogAllAppends(Empty, errors);
  }
}

=== FILE: js.dfy ===
/**
 The JavaScript values the puzzle model handles, the failure datatypes used for
 thrown exceptions, and the few coercions of the language that the modelled code
 relies on (truthiness, strict equality, relational comparison with a number).
 */
module Js {

  /**
   A primitive JavaScript value. Numbers are restricted to integers: fractions,
   NaN and the infinities are not represented.
   */
  datatype Value = Undefined | Null | Bool(b: bool) | Number(n: int) | Str(s: string)

  /** A slot that documents itself as "a number, or null/undefined if not defined". */
  type NumberOrNothing = v: Value | v.Undefined? || v.Null? || v.Number? witness Undefined

  datatype Option<+T> = None | Some(value: T)

  /** What a thrown exception carries. */
  datatype Error =
    | UnknownPolePosition(pole: string)
    | IllegalDimension(dimension: NumberOrNothing)
    | TypeError(message: string)

  /** Completion of a statement that returns nothing: normal, or by a throw. */
  datatype Outcome = Pass | Fail(error: Error)

  datatype Result<+T> = Success(value: T) | Failure(error: Error)

  /** JavaScript's ToBoolean. */
  predicate Truthy(v: Value)
  {
    match v
    case Undefined => false
    case Null => false
    case Bool(b) => b
    case Number(n) => n != 0
    case Str(s) => s != ""
  }

  /** ToNumber on a number slot: `None` stands for NaN (what `undefined` becomes). */
  function ToNumber(v: NumberOrNothing): (r: Option<int>)
    ensures r.None? <==> v.Undefined?
    ensures v.Number? ==> r == Some(v.n)
  {
    match v
    case Undefined => None
    case Null => Some(0)
    case Number(n) => Some(n)
  }

  /** `v < k`; a comparison with NaN is false. */
  predicate LessThan(v: NumberOrNothing, k: int)
  {
    ToNumber(v).Some? && ToNumber(v).value < k
  }

  /** `v > k`; a comparison with NaN is false. */
  predicate GreaterThan(v: NumberOrNothing, k: int)
  {
    ToNumber(v).Some? && ToNumber(v).value > k
  }

  /** `k > v` with the number `k` on the left. */
  predicate Exceeds(k: int, v: NumberOrNothing)
  {
    ToNumber(v).Some? && k > ToNumber(v).value
  }

  /** `k === v` with the number `k` on the left: no coercion, so only a number can be equal. */
  predicate StrictEqualsNumber(k: int, v: Value)
  {
    v == Number(k)
  }
}

=== FILE: line.dfy ===
/**
 A row or column of the grid (app/line.js): an ordered list of cells and a
 record of how many '+' and how many '-' cells it must hold.

 The line refers to its cells, so it stores their indices in the cell arena;
 `check` reads each cell's value through the arena, as the source reads it
 through `getValue`.
 */
module Lines {
  import opened Js
  import opened Cells

  /** The two keys a constraint record is read at; also the values `check` counts. */
  const PlusKey: string := "+"
  const MinusKey: string := "-"

  /** A constraint record: property name to number (or null/undefined). */
  type Constraints = map<string, NumberOrNothing>

  datatype Line = Line(length: int, constraints: Constraints, cells: seq<nat>, name: string)

  /** Property lookup on a record: a missing key reads as undefined. */
  function Constraint(constraints: Constraints, key: string): NumberOrNothing
  {
    if key in constraints then constraints[key] else Undefined
  }

  /** Every cell the line refers to exists in an arena of `size` cells. */
  predicate CellsIn(line: Line, size: nat)
  {
    forall k :: 0 <= k < |line.cells| ==> line.cells[k] < size
  }

  // ---------------------------------------------------------------------------
  // Counting

  /** How many of `values` are (strictly) equal to `v`: the length of the filtered list. */
  function CountOf(values: seq<Value>, v: Value): (n: nat)
    ensures n == multiset(values)[v]
    ensures n <= |values|
  {
    if values == [] then 0
    else
      assert values == [values[0]] + values[1..];
      (if values[0] == v then 1 else 0) + CountOf(values[1..], v)
  }

  /** The line's cell values, in line order, as `getValue` returns them. */
  function Values(line: Line, cells: Arena): (vs: seq<Value>)
    requires CellsIn(line, |cells|)
    ensures |vs| == |line.cells|
    ensures forall k :: 0 <= k < |vs| ==> vs[k] == GetValue(cells, line.cells[k])
  {
    seq(|line.cells|, k requires 0 <= k < |line.cells| => cells[line.cells[k]].value)
  }

  // ---------------------------------------------------------------------------
  // What a constraint demands

  /** The constraint at `key` is a requirement: only a non-zero number is truthy. */
  ghost predicate Demands(constraints: Constraints, key: string)
  {
    Constraint(constraints, key).Number? && Constraint(constraints, key).n != 0
  }

  /** The values hold exactly as many `key`s as a demanding constraint asks for. */
  ghost predicate MeetsExactly(constraints: Constraints, values: seq<Value>, key: string)
  {
    Demands(constraints, key) ==> multiset(values)[Str(key)] == Constraint(constraints, key).n
  }

  /** The values hold no more `key`s than a demanding constraint allows. */
  ghost predicate StaysWithin(constraints: Constraints, values: seq<Value>, key: string)
  {
    Demands(constraints, key) ==> multiset(values)[Str(key)] <= Constraint(constraints, key).n
  }

  /**
   The test for one polarity inside `check`: a falsy constraint passes; a truthy
   one compares the count with `!==` when strict and with `>` otherwise.
   */
  predicate PolarityPasses(constraints: Constraints, values: seq<Value>, key: string, strict: bool)
  {
    var c := Constraint(constraints, key);
    if Truthy(c) then
      var sum := CountOf(values, Str(key));
      if strict then StrictEqualsNumber(sum, c) else !Exceeds(sum, c)
    else
      true
  }

  /** `check(strict)` on a list of cell values: '+' and then '-' must both pass. */
  function CheckValues(constraints: Constraints, values: seq<Value>, strict: bool): (ok: bool)
    ensures strict ==>
      (ok <==> MeetsExactly(constraints, values, PlusKey) && MeetsExactly(constraints, values, MinusKey))
    ensures !strict ==>
      (ok <==> StaysWithin(constraints, values, PlusKey) && StaysWithin(constraints, values, MinusKey))
  {
    PolarityPasses(constraints, values, PlusKey, strict)
    && PolarityPasses(constraints, values, MinusKey, strict)
  }

  // ---------------------------------------------------------------------------
  // The operations of a line

  /** The constructor: both constraints null and no cells, so nothing is demanded. */
  function NewLine(length: int, name: string): (l: Line)
    ensures l.length == length && l.name == name && l.cells == []
    ensures Constraint(l.constraints, PlusKey) == Null && Constraint(l.constraints, MinusKey) == Null
    ensures !Demands(l.constraints, PlusKey) && !Demands(l.constraints, MinusKey)
  {
    Line(length, map[PlusKey := Null, MinusKey := Null], [], name)
  }

  /**
   `setConstraints`: picks the '+' and '-' properties of the record that are
   present and drops every other property (such as `plus` or `minus`).
   */
  function SetConstraints(line: Line, record: Constraints): (r: Line)
    ensures r.constraints.Keys == record.Keys * {PlusKey, MinusKey}
    ensures forall key :: key in r.constraints ==> key in record && r.constraints[key] == record[key]
    ensures Constraint(r.constraints, PlusKey) == Constraint(record, PlusKey)
    ensures Constraint(r.constraints, MinusKey) == Constraint(record, MinusKey)
    ensures r.cells == line.cells && r.length == line.length && r.name == line.name
  {
    line.(constraints := map key | key in record && (key == PlusKey || key == MinusKey) :: record[key])
  }

  /** `addCells` (the append): the given cells follow the existing ones, in order. */
  function AddCells(line: Line, cells: seq<nat>): (r: Line)
    ensures |r.cells| == |line.cells| + |cells|
    ensures r.cells[..|line.cells|] == line.cells
    ensures r.cells[|line.cells|..] == cells
    ensures r.constraints == line.constraints && r.length == line.length && r.name == line.name
  {
    line.(cells := line.cells + cells)
  }

  /** `check(strict)`: counts the line's cell values per constrained polarity. */
  function Check(line: Line, cells: Arena, strict: bool): (ok: bool)
    requires CellsIn(line, |cells|)
    ensures var vs := Values(line, cells);
      strict ==> (ok <==> MeetsExactly(line.constraints, vs, PlusKey) && MeetsExactly(line.constraints, vs, MinusKey))
    ensures var vs := Values(line, cells);
      !strict ==> (ok <==> StaysWithin(line.constraints, vs, PlusKey) && StaysWithin(line.constraints, vs, MinusKey))
  {
    CheckValues(line.constraints, Values(line, cells), strict)
  }

  // ---------------------------------------------------------------------------
  // Properties of check

  /** A polarity whose constraint is null, undefined or 0 passes whatever the cells hold. */
  lemma FalsyConstraintImposesNothing(constraints: Constraints, values: seq<Value>, key: string, strict: bool)
    requires !Truthy(Constraint(constraints, key))
    ensures PolarityPasses(constraints, values, key, strict)
  {
  }

  /**
   On a whole line: when one polarity's constraint is falsy, `check` gives
   exactly the other polarity's verdict, in either mode.
   */
  lemma FalsyConstraintLeavesTheOther(line: Line, cells: Arena, strict: bool)
    requires CellsIn(line, |cells|)
    ensures !Truthy(Constraint(line.constraints, PlusKey)) ==>
      Check(line, cells, strict) == PolarityPasses(line.constraints, Values(line, cells), MinusKey, strict)
    ensures !Truthy(Constraint(line.constraints, MinusKey)) ==>
      Check(line, cells, strict) == PolarityPasses(line.constraints, Values(line, cells), PlusKey, strict)
  {
  }

  /** A line that passes the exact check also passes the bound check. */
  lemma StrictImpliesLax(line: Line, cells: Arena)
    requires CellsIn(line, |cells|)
    ensures Check(line, cells, true) ==> Check(line, cells, false)
  {
  }

  /** A record that only names `plus`/`minus` (not '+'/'-') leaves the line unconstrained. */
  lemma WordKeysImposeNothing(line: Line, record: Constraints, cells: Arena, strict: bool)
    requires PlusKey !in record && MinusKey !in record
    requires CellsIn(line, |cells|)
    ensures Check(SetConstraints(line, record), cells, strict)
  {
  }

  /** A fresh line passes either check on any arena. */
  lemma NewLinePasses(length: int, name: string, cells: Arena, strict: bool)
    ensures Check(NewLine(length, name), cells, strict)
  {
  }

  /** Appending cells can only raise the counts, so a bound check that fails keeps failing. */
  lemma {:induction false} AddCellsKeepsLaxFailure(line: Line, added: seq<nat>, cells: Arena)
    requires CellsIn(line, |cells|)
    requires forall k :: 0 <= k < |added| ==> added[k] < |cells|
    ensures CellsIn(AddCells(line, added), |cells|)
    ensures Check(AddCells(line, added), cells, false) ==> Check(line, cells, false)
  {
    var longer := AddCells(line, added);
    assert CellsIn(longer, |cells|) by {
      forall k | 0 <= k < |longer.cells|
        ensures longer.cells[k] < |cells|
      {
        if k >= |line.cells| {
          assert longer.cells[k] == added[k - |line.cells|];
        }
      }
    }
    var vs := Values(line, cells);
    var ws := Values(longer, cells);
    assert ws[..|vs|] == vs;
    assert ws == vs + ws[|vs|..];
    assert multiset(ws) == multiset(vs) + multiset(ws[|vs|..]);
  }

  /** `set` writes polarities, `check` reads values: no `set` changes any check result. */
  lemma SetDoesNotAffectCheck(line: Line, cells: Arena, i: nat, polarity: Value, ignoreOtherPole: bool, strict: bool)
    requires CellsIn(line, |cells|) && OppositeInRange(cells, i)
    ensures var after := Set(cells, i, polarity, ignoreOtherPole).cells;
      CellsIn(line, |after|) && Check(line, after, strict) == Check(line, cells, strict)
  {
    var after := Set(cells, i, polarity, ignoreOtherPole).cells;
    assert Values(line, after) == Values(line, cells);
  }

  /** Likewise no `forbid` changes any check result. */
  lemma ForbidDoesNotAffectCheck(line: Line, cells: Arena, i: nat, ignoreOtherPole: bool, strict: bool)
    requires CellsIn(line, |cells|) && OppositeInRange(cells, i)
    ensures var after := Forbid(cells, i, ignoreOtherPole).cells;
      CellsIn(line, |after|) && Check(line, after, strict) == Check(line, cells, strict)
  {
    var after := Forbid(cells, i, ignoreOtherPole).cells;
    assert Values(line, after) == Values(line, cells);
  }

  /**
   On cells whose `value` was never written, nothing is counted: the exact
   check passes only when neither polarity is constrained, and the bound check
   fails only on a negative constraint.
   */
  lemma UnwrittenValuesCountNothing(line: Line, cells: Arena)
    requires CellsIn(line, |cells|) && ValuesUnwritten(cells)
    ensures Check(line, cells, true) <==>
      !Truthy(Constraint(line.constraints, PlusKey)) && !Truthy(Constraint(line.constraints, MinusKey))
    ensures !Check(line, cells, false) <==>
      LessThan(Constraint(line.constraints, PlusKey), 0) || LessThan(Constraint(line.constraints, MinusKey), 0)
  {
  }
}
